=== FILE: README.md ===
# Rental backend core in Dafny

A model of the business rules of a NestJS/Mongo rental backend. It has three
stores and the logic over them:

- the **booking engine** (`BookingsService`): create a booking unless the user
  already holds a CONSUMING booking for the product; look up one of the
  caller's bookings; list the caller's bookings by status; mark a booking
  returned;
- the **session store and token issuer** (`SessionService`): every claim stores
  one session `(subscriber, rt_secret)` and issues an access token signed with
  the constant `auth.at_secret` and a refresh token signed with the session's
  secret, both with payload `{ subscriber }`;
- the **credential store** (`UserService`) and the **auth orchestrator**
  (`AuthService`). Their implementations are not part of this model. Their
  test suites state: empty or duplicate credentials are refused with some
  error, passwords are stored hashed, lookups answer `null`, and update and
  delete of a missing user throw. Registration refuses a taken username or
  email with 403. Login gives one identical 403 for an unknown user and for a
  wrong password. Logout deletes one session by id. Where the tests only
  require a throw, the model picks the error kind and the order of the
  checks (listed under "## Left out").

Each store is a `seq` of immutable records in insertion order. Every operation
is a pure function that returns the new store together with its answer. A
thrown exception becomes `Result.Failure` carrying an `AppError`, and a
`null` becomes `Option.None`. A Mongo filter is a predicate on records. The
queries (`findOne`, `find`, count, remove) are defined once, in
`Collections`, and every store uses them.

External effects are parameters:

- the fresh `_id` the store assigns;
- the refresh secret (the bcrypt hash of `userId-Date.now()` in the code);
- the bcrypt salt;
- the entity defaults of a booking's `status` and `returned`. The intended
  defaults are `CONSUMING` and `false` (`Bookings.IntendedDefaults`).

bcrypt is replaced by a stand-in digest: the scheme tag, a 22-character salt
and then the plaintext itself. The stand-in is injective but not one-way (the
digest ends with the plaintext verbatim); `compareSync` re-hashes with the
digest's own salt. A JWT is an opaque signed value that records its payload and
the key that signed it.

Modules: `Results`, `AppErrors`, `Collections`, `Bookings` + `BookingLaws`,
`Sessions` + `SessionLaws`, `Passwords`, `Users` + `UserLaws`, `Auth` +
`AuthLaws`.

Where the code and its own tests disagree, the model follows the code:

- The logout test reads `session_id` out of the decoded access token
  (src/api/auth/auth.service.spec.ts:190-191), but the code signs only
  `{ subscriber }` (src/api/session/session.service.ts:38). The issued payload
  has no session field, so logout is modelled by session id directly.
  `SessionLaws.AccessTokenCannotNameItsSession` states the consequence within
  the model: two sessions of one user get access tokens with the same payload.

Consequences of the code and its tests:

- The registration tests expect a taken username or email as 403 (Forbidden)
  (src/api/auth/auth.service.spec.ts:83,101). The `AuthService` code is not
  part of this model, so this 403 is taken from the tests.
- `returnBooking` flips only `returned` and leaves `status` untouched
  (src/api/bookings/bookings.service.ts:90-100), while `create` checks
  `status` only (src/api/bookings/bookings.service.ts:32-36).
  `BookingLaws.ReturnedConsumingStillBlocks` proves that a returned CONSUMING
  booking still blocks a new booking of the same product by the same user.

## Model

| member | source | states |
|---|---|---|
| Bookings.Create | src/api/bookings/bookings.service.ts:31-46 | fails with the product-already-booked 403 exactly when the user holds a CONSUMING booking for the product; otherwise the store gains exactly one booking at the end, with product and dates from the payload, user = subscriber, status/returned from the entity defaults, and the old bookings untouched |
| Bookings.MyBookingFindOne | src/api/bookings/bookings.service.ts:54-62 | a returned booking has both the requested id and the caller as owner; nothing is returned exactly when no booking has both, so another user's booking is never returned |
| Bookings.StatusLabel | src/api/bookings/bookings.service.ts:35 | the stored label is never empty, and it is the CONSUMING label exactly for `Consuming` |
| Bookings.StatusLabelInjective | src/api/bookings/bookings.service.ts:76-77 | two statuses have the same stored label exactly when they are the same status, so a status filter matches by label |
| Bookings.MyBookings | src/api/bookings/bookings.service.ts:67-88 | a booking is listed exactly when it is in the store, belongs to the caller and, when a status is given, has that status; with no status the status is not filtered |
| Bookings.ReturnBooking | src/api/bookings/bookings.service.ts:90-101 | when some booking of the caller for the product is not yet returned, the first such booking, and only it, gets `returned = true`; otherwise the store is unchanged |
| BookingLaws.OnlyConsumingPairBlocks | src/api/bookings/bookings.service.ts:32-39 | adding any number of bookings for another product, another user or a non-CONSUMING status never changes whether `create` fails |
| BookingLaws.ReturnOnlyFlipsReturned | src/api/bookings/bookings.service.ts:90-100 | `returnBooking` changes no field except `returned` (status, dates, ids stay) and never sets `returned` back to false |
| BookingLaws.OpenCountNeverIncreases | src/api/bookings/bookings.service.ts:94-99 | for every (product, user) pair the number of non-returned bookings does not grow, and for the caller's pair it drops by exactly one when a booking was updated |
| BookingLaws.ReturnedConsumingStillBlocks | src/api/bookings/bookings.service.ts:32-39 | after `returnBooking`, a CONSUMING booking of the pair still makes `create` fail with the product-already-booked 403 |
| BookingLaws.CreatePreservesAtMostOneConsuming | src/api/bookings/bookings.service.ts:31-46 | in a sequential run, `create` keeps at most one CONSUMING booking per (product, user) pair |
| BookingLaws.ReturnPreservesAtMostOneConsuming | src/api/bookings/bookings.service.ts:90-101 | `returnBooking` keeps at most one CONSUMING booking per (product, user) pair |
| BookingLaws.SecondCreateForPairFails | src/api/bookings/bookings.service.ts:31-46 | with the entity's CONSUMING default, after one successful `create` a second `create` by the same user for the same product fails with the product-already-booked 403 |
| BookingLaws.CreatedBookingIsScopedToOwner | src/api/bookings/bookings.service.ts:40-86 | a booking created under a fresh id is found by its owner and listed for its owner, and is neither found nor listed for any other user |
| Sessions.GenerateAccessAndRefreshTokens | src/api/session/session.service.ts:36-45 | both payloads are exactly `{subscriber}`; the access token verifies under `auth.at_secret` and no other key, the refresh token under `rt_secret` and no other key; it reads no store |
| Sessions.StoreSessionToDatabase | src/api/session/session.service.ts:52-55 | the store gains exactly one session at the end carrying the subscriber and secret, the old sessions are unchanged, and the subscriber's session count rises by one whatever it was |
| Sessions.ClaimToken | src/api/session/session.service.ts:20-29 | the claim stores one session with the subscriber and secret, and the refresh token it returns verifies under that session's stored secret; the access token verifies under the constant secret; both carry the session's subscriber |
| Sessions.DeleteById | src/api/auth/auth.service.spec.ts:177-205 | always acknowledged; deletedCount is 1 exactly when a session has the id and 0 otherwise, with the store then unchanged; on a deletion the store is the old one with exactly the first session carrying the id removed, every other session kept in order |
| SessionLaws.RepeatedClaimsKeepBothSessions | src/api/session/session.service.ts:20-29 | two claims for one subscriber store two distinct sessions, both kept, and the subscriber's session count rises by two |
| SessionLaws.ClaimPreservesUniqueIds | src/api/session/session.service.ts:52-55 | a claim under a fresh id keeps session ids unique |
| SessionLaws.RefreshTokenBoundToItsSession | src/api/session/session.service.ts:22-28 | judged only by what it carries (`{ subscriber }` and its signature), the refresh token verifies against the store the claim leaves, and its signature checks under no stored secret other than the claim's |
| SessionLaws.AccessTokenCannotNameItsSession | src/api/session/session.service.ts:37-42 | claims for one subscriber with different sessions issue access tokens with the same payload and key, so no reading of them yields both session ids |
| SessionLaws.AtMostOneWithId | src/api/session/session.service.ts:52-55 | in a store with unique ids at most one session carries a given id |
| SessionLaws.DeleteByIdIsIdempotent | src/api/auth/auth.service.spec.ts:199-205 | a second delete with the same id removes nothing and reports deletedCount 0 |
| SessionLaws.DeleteRevokesRefreshToken | src/api/session/session.service.ts:43 | in a store with unique ids and unique refresh secrets, deleting a session by its id leaves no session under which a token signed with that session's secret verifies, whatever its payload |
| Passwords.HashSync | src/api/user/user.service.spec.ts:52-57 | a digest starts with the scheme tag and is longer than the plaintext by tag and salt |
| Passwords.DigestDiffersFromPlaintext | src/api/user/user.service.spec.ts:56 | a stored digest never equals the plaintext it came from |
| Passwords.CompareAcceptsHashedPlaintext | src/api/auth/auth.service.spec.ts:109-130 | comparing the hashed plaintext against its digest succeeds |
| Passwords.CompareRejectsOtherPlaintext | src/api/auth/auth.service.spec.ts:154-173 | comparing any other plaintext against the digest fails |
| Users.Create | src/api/user/user.service.spec.ts:44-104 | fails exactly when username, email or password is empty or the username or email is taken; the first empty field in the order username, email, password gives that field's validation error, and with all fields present a taken username gives the username conflict and otherwise a taken email the email conflict; on success appends one user with the payload's name, username and email and a password digest unequal to the plaintext that accepts it |
| Users.GetUser | src/api/user/user.service.spec.ts:108-149 | returns a stored user the filter (`_id`, username or email) selects, and null, not an error, exactly when none matches |
| Users.Update | src/api/user/user.service.spec.ts:192-215 | throws NotFound exactly when nothing matches; otherwise one selected user gets the patched name and every other field and record is unchanged |
| Users.Delete | src/api/user/user.service.spec.ts:153-188 | throws NotFound exactly when nothing matches; otherwise acknowledges with deletedCount 1, and the store is the old one with exactly the first selected record removed, every other record kept in order |
| UserLaws.CreatePreservesValid | src/api/user/user.service.spec.ts:72-104 | `create` under a fresh id keeps username and email non-empty and unique |
| UserLaws.UpdatePreservesValid | src/api/user/user.service.spec.ts:192-208 | a name patch keeps the store valid |
| UserLaws.DeletePreservesValid | src/api/user/user.service.spec.ts:153-182 | `delete` keeps the store valid |
| UserLaws.AtMostOneSelected | src/api/user/user.service.spec.ts:108-142 | in a valid store a lookup by `_id`, username or email selects at most one record |
| UserLaws.CreatedUserIsFound | src/api/user/user.service.spec.ts:108-142 | a created user is found again by its id, its username and its email |
| UserLaws.DeletedUserIsGone | src/api/user/user.service.spec.ts:153-188 | after deleting by `_id`, username or email the user is not found, and deleting it again throws NotFound |
| AppErrors.StatusCode | src/api/auth/auth.service.spec.ts:83-169 | an error surfaces with 403 exactly when it is a `Forbidden` refusal (registration conflicts and bad credentials in the tests), and every error code is a client error (4xx) |
| Auth.Register | src/api/auth/auth.service.spec.ts:53-105 | a taken username fails with 403 USERNAME_ALREADY_EXISTS; a fresh username with a taken email fails with 403 EMAIL_ALREADY_EXISTS; success exactly for non-empty fresh credentials, returning the payload's email, name and username with a password unequal to the plaintext |
| Auth.Login | src/api/auth/auth.service.spec.ts:109-173 | every failure is 403 INVALID_CREDENTIALS; in a valid store it succeeds exactly when a user with that username has a digest that accepts the password, and then stores one session for that user and returns an access and a refresh token for it |
| Auth.Logout | src/api/auth/auth.service.spec.ts:177-205 | never fails; acknowledged with deletedCount 1 when a session has the id and 0 otherwise; on a deletion exactly the first session with the id is removed and every other session is kept in order |
| AuthLaws.RegisterPreservesValid | src/api/auth/auth.service.spec.ts:53-105 | registration under a fresh id keeps the credential store valid |
| AuthLaws.LoginFailuresAreIndistinguishable | src/api/auth/auth.service.spec.ts:132-173 | an unknown username and a wrong password give the identical 403 failure |
| AuthLaws.RegisterThenLogin | src/api/auth/auth.service.spec.ts:109-130 | after registering, the username and plaintext password log in, the new session and both tokens carry the new user's id, and any other password is refused |
| AuthLaws.LoginThenLogoutTwice | src/api/auth/auth.service.spec.ts:177-205 | with unique session ids and secrets and a fresh login secret, logging out the session a login stored deletes exactly it (deletedCount 1) and the login's refresh token then verifies against no remaining session; logging out again reports deletedCount 0 |
| AuthLaws.JohnDoeScenario | src/api/auth/auth.service.spec.ts:177-197 | registering johndoe, logging in with its password and logging out with the stored session's id acknowledges deletedCount 1 |

## Left out

- Pagination of `myBookings` (`page`, `limit`) and `population: 'product'`. `DatabaseRepository` is not part of this model, so the list is the full filtered sequence and a found booking carries only its product id.
- The race in booking `create`. The check and the insert are two store calls, so two concurrent requests can both pass the check. The model is sequential; `BookingLaws.CreatePreservesAtMostOneConsuming` holds only for sequential runs.
- Bookings.ReturnBooking: updates only the first matching booking. Whether `DatabaseRepository.update` updates one or all matches is not visible. Its return value is modelled as the updated record, and when nothing matches the model answers `updated = None` with the store unchanged; what `update` does on a miss is not visible either.
- Bookings.MyBookingFindOne: `toMongooseObjectId(id)` and `DatabaseRepository.show` are not part of this model. A miss is modelled as null, and an id the cast would reject is modelled as an id no booking has (a miss), not as a thrown error.
- Booking defaults: the entity sets `status` and `returned`, but the entity file is not part of this model. They are the `EntityDefaults` parameter.
- `BOOKING_STATUS` values other than CONSUMING are an open `Other(name)` family whose names are non-empty and differ from the CONSUMING label. The enum file is not part of this model, so the stored label `"CONSUMING"` is taken from the member's name.
- Bookings.MyBookings: the query's status is already parsed. An empty `status` string is falsy in `if (payload.status)` (src/api/bookings/bookings.service.ts:76), so it corresponds to `ListQuery(None)`; the non-empty `StatusName` makes `Some` of an empty status unrepresentable.
- `generateRefreshTokenSecret` (`hashSync(userId + '-' + Date.now(), 10)`): the clock and the random salt make its result a fresh value, so the secret is a parameter of `ClaimToken` and `Login`.
- Passwords.HashSync: the stand-in digest contains the plaintext verbatim, so it is not one-way, and bcrypt's cost factor is not modelled. bcryptjs hashes only the first 72 bytes of the plaintext; the stand-in keeps all of it, so two passwords sharing a 72-byte prefix get different digests here but the same one in the library.
- Passwords.CompareRejectsOtherPlaintext: holds for the stand-in for every other plaintext; with bcryptjs it holds only when the two plaintexts differ within their first 72 bytes.
- AuthLaws.RegisterThenLogin: the refusal of any other password inherits the same 72-byte caveat.
- JWT encoding, expiry and signature cryptography. A token is its payload plus the signing key.
- SessionLaws.AccessTokenCannotNameItsSession: `jsonwebtoken`'s `sign` adds an `iat` (issued-at, in seconds) claim by default, which the model drops. With it, two claims made in different seconds get different access tokens; the lemma's equality of the two access tokens holds only without `iat`. What survives is that neither payload carries a session field.
- Users.Update: only the `name` field of the patch is modelled. The tests patch only the name, and the service implementation is not part of this model.
- Auth.Login: resolves the identifier by username only, as the tests do. Lookup by email is not modelled.
- Reading `session_id` out of a decoded access token (the logout test): the issued payload has no such field, so logout takes the session id directly.
- Refresh-token rotation and the passport strategies are not part of this model. `Sessions.VerifyRefreshToken` is the model's own check, by what a token carries: it accepts a token when a stored session of the token's subscriber holds the key it was signed with.
- SessionLaws.DeleteRevokesRefreshToken: revocation needs refresh secrets to be unique per session. The code draws each secret as a salted bcrypt hash of the user id and the time, which the model takes as fresh (`UniqueSecrets`), not as proved.
- Users.Create: the tests require only that empty or duplicate credentials throw. The error kinds (`Validation` per field, `Conflict`), their order (username, email, password, then a taken username, then a taken email) and `NotFound` from `Users.Update`/`Users.Delete` are this model's choice, and so are the status codes 409, 400 and 404 that `AppErrors.StatusCode` gives `Conflict`, `Validation` and `NotFound`; only 403 appears in the tests.
- HTTP controllers and the `AppResponse` envelope, module wiring, configuration loading (database URLs) and test setup/teardown (`deleteMany`): framework glue with no rules of its own.

=== FILE: auth.dfy ===
/**
 * The auth orchestrator behind `AuthService`, as its test suite pins it down:
 * registration refuses a taken username or email with a 403, login gives the
 * same 403 whether the username is unknown or the password wrong and
 * otherwise claims a session with its token pair, and logout deletes a
 * session by id without ever failing.
 */
module Auth {
  import opened Results
  import opened AppErrors
  import opened Collections
  import opened Passwords
  import opened Users
  import opened Sessions

  /** `AuthRegisterDTO`: the user's name, username, email and plaintext password. */
  type RegisterPayload = CreateUserPayload

  /** The login form: the username under `user`, and the plaintext password. */
  datatype LoginPayload = LoginPayload(user: string, password: string)

  /** Reference definition of valid credentials: a stored user with this username whose digest accepts the password. */
  ghost predicate Authentic(users: seq<User>, username: string, password: string) {
    exists i :: 0 <= i < |users| && users[i].username == username && CompareSync(password, users[i].password)
  }

  /**
   * `register`: a taken username wins over a taken email, both refused with
   * 403; otherwise the credential store creates the user.
   */
  function Register(users: seq<User>, payload: RegisterPayload, id: UserId, salt: Salt): (r: Result<Inserted, AppError>)
    ensures UsernameTaken(users, payload.username) ==> r == Failure(Forbidden(UsernameAlreadyExists))
    ensures !UsernameTaken(users, payload.username) && EmailTaken(users, payload.email) ==>
              r == Failure(Forbidden(EmailAlreadyExists))
    ensures r.Success? <==> && payload.username != [] && payload.email != [] && payload.password != []
                            && !UsernameTaken(users, payload.username)
                            && !EmailTaken(users, payload.email)
    ensures r.Success? ==> && r.value.users == users + [r.value.user]
                           && r.value.user.id == id
                           && r.value.user.name == payload.name
                           && r.value.user.username == payload.username
                           && r.value.user.email == payload.email
                           && r.value.user.password != payload.password
  {
    if GetUser(users, ByUsername(payload.username)).Some? then
      Failure(Forbidden(UsernameAlreadyExists))
    else if GetUser(users, ByEmail(payload.email)).Some? then
      Failure(Forbidden(EmailAlreadyExists))
    else
      Users.Create(users, payload, id, salt)
  }

  /**
   * `login`: resolve the username, compare the password with the stored
   * digest, and on success claim a session. `rtSecret` is the fresh refresh
   * secret and `sessionId` the fresh session id.
   */
  function Login(users: seq<User>, sessions: seq<Session>, payload: LoginPayload,
                 rtSecret: Secret, sessionId: SessionId): (r: Result<Claim, AppError>)
    ensures r.Failure? ==> r.error == Forbidden(InvalidCredentials)
    ensures Valid(users) ==> (r.Success? <==> Authentic(users, payload.user, payload.password))
    ensures r.Success? ==>
      exists i :: && 0 <= i < |users|
                  && users[i].username == payload.user
                  && CompareSync(payload.password, users[i].password)
                  && r.value.session == Session(sessionId, users[i].id, rtSecret)
    ensures r.Success? ==> && r.value.sessions == sessions + [r.value.session]
                           && JwtDecode(r.value.tokens.accessToken) == Payload(r.value.session.subscriber)
                           && JwtDecode(r.value.tokens.refreshToken) == Payload(r.value.session.subscriber)
                           && JwtVerify(r.value.tokens.accessToken, AccessTokenSecret)
                           && JwtVerify(r.value.tokens.refreshToken, rtSecret)
  {
    match GetUser(users, ByUsername(payload.user))
    case None => Failure(Forbidden(InvalidCredentials))
    case Some(u) =>
      if !CompareSync(payload.password, u.password) then Failure(Forbidden(InvalidCredentials))
      else Success(ClaimToken(sessions, u.id, rtSecret, sessionId))
  }

  /** `logout`: delete the session with this id; an unknown id is acknowledged with zero deletions. */
  function Logout(sessions: seq<Session>, sessionId: SessionId): (r: Deletion)
    ensures r.ack.acknowledged
    ensures r.ack.deletedCount == (if exists i :: 0 <= i < |sessions| && sessions[i].id == sessionId then 1 else 0)
    ensures r.ack.deletedCount == 0 ==> r.sessions == sessions
    ensures |r.sessions| + r.ack.deletedCount == |sessions|
    ensures r.ack.deletedCount == 1 ==>
      exists k :: && 0 <= k < |sessions|
                  && sessions[k].id == sessionId
                  && (forall j :: 0 <= j < k ==> sessions[j].id != sessionId)
                  && r.sessions == RemoveAt(sessions, k)
  {
    DeleteById(sessions, sessionId)
  }
}

=== FILE: auth_laws.dfy ===
/**
 * Properties of the auth orchestrator across calls: the session lifecycle
 * none -> active (login) -> revoked (logout), credential-failure
 * indistinguishability, and the register/login round trip.
 */
module AuthLaws {
  import opened Results
  import opened AppErrors
  import opened Collections
  import opened Passwords
  import opened Users
  import opened Sessions
  import opened UserLaws
  import opened SessionLaws
  import opened Auth

  /** A successful registration under a fresh id keeps the credential store valid. */
  lemma RegisterPreservesValid(users: seq<User>, payload: RegisterPayload, id: UserId, salt: Salt)
    requires Valid(users)
    requires forall i :: 0 <= i < |users| ==> users[i].id != id
    ensures var r := Register(users, payload, id, salt);
            r.Success? ==> Valid(r.value.users)
  {
  }

  /**
   * An unknown username and a wrong password for a known one fail with the
   * same error, so a caller cannot tell which check refused it.
   */
  lemma LoginFailuresAreIndistinguishable(users: seq<User>, sessions: seq<Session>,
                                          unknown: LoginPayload, wrong: LoginPayload,
                                          rtSecret: Secret, sessionId: SessionId)
    requires Valid(users)
    requires forall i :: 0 <= i < |users| ==> users[i].username != unknown.user
    requires exists i :: 0 <= i < |users| && users[i].username == wrong.user
    requires forall i :: 0 <= i < |users| && users[i].username == wrong.user ==>
               !CompareSync(wrong.password, users[i].password)
    ensures Login(users, sessions, unknown, rtSecret, sessionId).Failure?
    ensures Login(users, sessions, wrong, rtSecret, sessionId).Failure?
    ensures Login(users, sessions, unknown, rtSecret, sessionId)
            == Login(users, sessions, wrong, rtSecret, sessionId)
    ensures StatusCode(Login(users, sessions, wrong, rtSecret, sessionId).error) == 403
  {
  }

  /**
   * Register then login: the new user's username and plaintext password log
   * in, the stored session belongs to the new user, and both tokens carry the
   * new user's id; any other password is refused.
   */
  lemma RegisterThenLogin(users: seq<User>, sessions: seq<Session>, payload: RegisterPayload,
                          id: UserId, salt: Salt, rtSecret: Secret, sessionId: SessionId,
                          otherPassword: string)
    requires Valid(users)
    requires forall i :: 0 <= i < |users| ==> users[i].id != id
    requires Register(users, payload, id, salt).Success?
    requires otherPassword != payload.password
    ensures var registered := Register(users, payload, id, salt).value.users;
            var r := Login(registered, sessions, LoginPayload(payload.username, payload.password), rtSecret, sessionId);
            && r.Success?
            && r.value.session == Session(sessionId, id, rtSecret)
            && JwtDecode(r.value.tokens.accessToken).subscriber == id
            && JwtDecode(r.value.tokens.refreshToken).subscriber == id
    ensures var registered := Register(users, payload, id, salt).value.users;
            Login(registered, sessions, LoginPayload(payload.username, otherPassword), rtSecret, sessionId)
              == Failure(Forbidden(InvalidCredentials))
  {
    var c := Register(users, payload, id, salt).value;
    CreatedUserIsFound(users, payload, id, salt);
    CompareAcceptsHashedPlaintext(payload.password, salt);
    CompareRejectsOtherPlaintext(payload.password, salt, otherPassword);
    assert GetUser(c.users, ByUsername(payload.username)) == Some(c.user);
    assert c.user.password == HashSync(payload.password, salt);
  }

  /**
   * Login then logout in a store with unique session ids and secrets, the
   * login's secret being fresh: the first logout with the new session's id
   * deletes exactly it and revokes its refresh token; a second logout with
   * the same id reports zero deletions.
   */
  lemma LoginThenLogoutTwice(users: seq<User>, sessions: seq<Session>, payload: LoginPayload,
                             rtSecret: Secret, sessionId: SessionId)
    requires UniqueIds(sessions) && UniqueSecrets(sessions)
    requires forall i :: 0 <= i < |sessions| ==> sessions[i].id != sessionId
    requires forall i :: 0 <= i < |sessions| ==> sessions[i].rtSecret != rtSecret
    requires Login(users, sessions, payload, rtSecret, sessionId).Success?
    ensures var login := Login(users, sessions, payload, rtSecret, sessionId).value;
            var first := Logout(login.sessions, sessionId);
            && first == Deletion(sessions, DeleteResult(true, 1))
            && !VerifyRefreshToken(first.sessions, login.tokens.refreshToken)
            && Logout(first.sessions, sessionId) == Deletion(sessions, DeleteResult(true, 0))
  {
    var login := Login(users, sessions, payload, rtSecret, sessionId).value;
    ClaimPreservesUniqueIds(sessions, login.session.subscriber, rtSecret, sessionId);
    assert login.sessions == sessions + [login.session];
    assert login.sessions[|sessions|].id == sessionId;
    assert FindFirst(login.sessions, WithId(sessionId)) == Some(|sessions|);
    assert RemoveAt(login.sessions, |sessions|) == sessions;
    assert UniqueSecrets(login.sessions) by {
      forall i, j | 0 <= i < j < |login.sessions|
        ensures login.sessions[i].rtSecret != login.sessions[j].rtSecret
      {
        if j < |sessions| {
          assert login.sessions[i] == sessions[i] && login.sessions[j] == sessions[j];
        } else {
          assert login.sessions[i] == sessions[i];
        }
      }
    }
    DeleteRevokesRefreshToken(login.sessions, |sessions|, login.tokens.refreshToken);
  }

  /**
   * The end-to-end scenario: register johndoe, log in with its password, then
   * log out with the id of the session the login stored.
   */
  lemma JohnDoeScenario(salt: Salt, rtSecret: Secret)
    ensures var payload := CreateUserPayload("John Doe", "johndoe", "john@gmail.com", "123456");
            var registered := Register([], payload, "u1", salt);
            && registered.Success?
            && var login := Login(registered.value.users, [], LoginPayload("johndoe", "123456"), rtSecret, "s1");
               && login.Success?
               && JwtDecode(login.value.tokens.accessToken).subscriber == "u1"
               && Logout(login.value.sessions, "s1").ack == DeleteResult(true, 1)
  {
  }
}

=== FILE: booking_laws.dfy ===
/**
 * Properties of the booking engine that relate several calls: which bookings
 * block `create`, what `returnBooking` preserves, and the invariant that a
 * user holds at most one CONSUMING booking per product.
 */
module BookingLaws {
  import opened Results
  import opened AppErrors
  import opened Bookings
  import opened Collections

  /** No two CONSUMING bookings share a (product, user) pair. */
  ghost predicate AtMostOneConsuming(rows: seq<Booking>) {
    forall i, j :: 0 <= i < |rows| && 0 <= j < |rows|
                   && rows[i].status == Consuming && rows[j].status == Consuming
                   && rows[i].product == rows[j].product && rows[i].user == rows[j].user
                   ==> i == j
  }

  /** Bookings for another product, another user or another status never block `create`. */
  lemma {:induction false} OnlyConsumingPairBlocks(rows: seq<Booking>, extra: seq<Booking>,
                                                   payload: CreateBookingPayload, subscriber: UserId,
                                                   id: BookingId, defaults: EntityDefaults)
    requires forall b :: b in extra ==>
               b.product != payload.product || b.user != subscriber || b.status != Consuming
    ensures Create(rows + extra, payload, subscriber, id, defaults).Failure?
            <==> Create(rows, payload, subscriber, id, defaults).Failure?
  {
    var all := rows + extra;
    if HoldsConsuming(all, payload.product, subscriber) {
      var i :| 0 <= i < |all| && all[i].product == payload.product && all[i].user == subscriber
                              && all[i].status == Consuming;
      assert all[i] == rows[i];
    }
    if HoldsConsuming(rows, payload.product, subscriber) {
      var i :| 0 <= i < |rows| && rows[i].product == payload.product && rows[i].user == subscriber
                               && rows[i].status == Consuming;
      assert all[i] == rows[i];
    }
  }

  /** `returnBooking` changes no field but `returned`, and only from false to true. */
  lemma ReturnOnlyFlipsReturned(rows: seq<Booking>, payload: CreateBookingPayload, subscriber: UserId)
    ensures var r := ReturnBooking(rows, payload, subscriber);
            forall i :: 0 <= i < |rows| ==>
              && r.rows[i].(returned := rows[i].returned) == rows[i]
              && r.rows[i].status == rows[i].status
              && (rows[i].returned ==> r.rows[i].returned)
  {
  }

  /**
   * `returnBooking` never makes a booking open again: for every (product, user)
   * pair the number of non-returned bookings does not grow, and for the
   * caller's pair it drops by exactly one when a booking was updated.
   */
  lemma OpenCountNeverIncreases(rows: seq<Booking>, payload: CreateBookingPayload, subscriber: UserId,
                                product: ProductId, user: UserId)
    ensures var r := ReturnBooking(rows, payload, subscriber);
            Count(r.rows, Where(OpenFilter(product, user))) <= Count(rows, Where(OpenFilter(product, user)))
    ensures var r := ReturnBooking(rows, payload, subscriber);
            r.updated.Some? && product == payload.product && user == subscriber ==>
              Count(r.rows, Where(OpenFilter(product, user))) + 1 == Count(rows, Where(OpenFilter(product, user)))
  {
    var r := ReturnBooking(rows, payload, subscriber);
    if r.updated.Some? {
      var k :| && 0 <= k < |rows|
               && IsOpenFor(rows[k], payload.product, subscriber)
               && r.rows == rows[k := rows[k].(returned := true)];
      CountUpdate(rows, k, rows[k].(returned := true), Where(OpenFilter(product, user)));
    }
  }

  /**
   * The two fields are independent: a CONSUMING booking still blocks `create`
   * for its pair after `returnBooking` has marked it returned.
   */
  lemma ReturnedConsumingStillBlocks(rows: seq<Booking>, payload: CreateBookingPayload, subscriber: UserId,
                                     again: CreateBookingPayload, id: BookingId, defaults: EntityDefaults)
    requires HoldsConsuming(rows, payload.product, subscriber)
    requires again.product == payload.product
    ensures Create(ReturnBooking(rows, payload, subscriber).rows, again, subscriber, id, defaults)
            == Failure(Forbidden(ProductAlreadyBookedError))
  {
    var r := ReturnBooking(rows, payload, subscriber);
    var i :| 0 <= i < |rows| && rows[i].product == payload.product && rows[i].user == subscriber
                             && rows[i].status == Consuming;
    ReturnOnlyFlipsReturned(rows, payload, subscriber);
    assert r.rows[i].product == payload.product && r.rows[i].user == subscriber
           && r.rows[i].status == Consuming;
  }

  /** `create` keeps at most one CONSUMING booking per (product, user) pair. */
  lemma CreatePreservesAtMostOneConsuming(rows: seq<Booking>, payload: CreateBookingPayload,
                                          subscriber: UserId, id: BookingId, defaults: EntityDefaults)
    requires AtMostOneConsuming(rows)
    ensures var r := Create(rows, payload, subscriber, id, defaults);
            r.Success? ==> AtMostOneConsuming(r.value.rows)
  {
  }

  /** `returnBooking` keeps at most one CONSUMING booking per (product, user) pair. */
  lemma ReturnPreservesAtMostOneConsuming(rows: seq<Booking>, payload: CreateBookingPayload,
                                          subscriber: UserId)
    requires AtMostOneConsuming(rows)
    ensures AtMostOneConsuming(ReturnBooking(rows, payload, subscriber).rows)
  {
  }

  /**
   * A booking created under a fresh id is found by its owner through
   * `myBookingFindOne` and listed by `myBookings`, and is hidden from every
   * other user.
   */
  lemma CreatedBookingIsScopedToOwner(rows: seq<Booking>, payload: CreateBookingPayload,
                                      subscriber: UserId, id: BookingId, defaults: EntityDefaults,
                                      other: UserId)
    requires forall b :: b in rows ==> b.id != id
    requires Create(rows, payload, subscriber, id, defaults).Success?
    requires other != subscriber
    ensures var created := Create(rows, payload, subscriber, id, defaults).value;
            && MyBookingFindOne(created.rows, id, subscriber) == Some(created.booking)
            && MyBookingFindOne(created.rows, id, other) == None
            && created.booking in MyBookings(created.rows, ListQuery(None), subscriber)
            && created.booking !in MyBookings(created.rows, ListQuery(None), other)
  {
  }

  /**
   * With the entity's defaults a new booking is CONSUMING, so once `create`
   * succeeds, a second `create` by the same user for the same product fails
   * with the product-already-booked 403, whatever its dates.
   */
  lemma SecondCreateForPairFails(rows: seq<Booking>, payload: CreateBookingPayload, subscriber: UserId,
                                 id: BookingId, again: CreateBookingPayload, id2: BookingId)
    requires again.product == payload.product
    requires Create(rows, payload, subscriber, id, IntendedDefaults).Success?
    ensures var created := Create(rows, payload, subscriber, id, IntendedDefaults).value;
            Create(created.rows, again, subscriber, id2, IntendedDefaults)
              == Failure(Forbidden(ProductAlreadyBookedError))
  {
    var created := Create(rows, payload, subscriber, id, IntendedDefaults).value;
    assert created.rows[|rows|] == created.booking;
  }
}

=== FILE: bookings.dfy ===
/**
 * The booking engine: a collection of booking records and the four operations
 * of `BookingsService` over it. The document store is a sequence in insertion
 * order; a Mongo `find` filter is a `Filter` whose present fields must all
 * equal the record's.
 */
module Bookings {
  import opened Results
  import opened AppErrors
  import opened Collections

  type BookingId = string
  type ProductId = string
  type UserId = string
  /** Dates are opaque instants supplied by the caller. */
  type Date = int

  /** The stored label of `BOOKING_STATUS.CONSUMING`. */
  const ConsumingLabel: string := "CONSUMING"

  /**
   * The label of any other status: never empty, since `myBookings` treats an
   * empty status as no status at all, and never the CONSUMING label, so each
   * stored label has exactly one `Status`.
   */
  type StatusName = s: string | |s| > 0 && s != ConsumingLabel witness "x"

  /** `BOOKING_STATUS`: `CONSUMING`, and the other lifecycle labels. */
  datatype Status = Consuming | Other(name: StatusName)

  /** The string the store keeps in a booking's `status` field. */
  function StatusLabel(s: Status): (text: string)
    ensures |text| > 0
    ensures text == ConsumingLabel <==> s == Consuming
  {
    match s
    case Consuming => ConsumingLabel
    case Other(name) => name
  }

  /** Distinct statuses are stored as distinct labels, so filtering on a `Status` is filtering on its label. */
  lemma StatusLabelInjective(a: Status, b: Status)
    ensures StatusLabel(a) == StatusLabel(b) <==> a == b
  {
  }

  datatype Booking = Booking(
    id: BookingId,
    product: ProductId,
    user: UserId,
    status: Status,
    startDate: Date,
    estimatedEndDate: Date,
    returned: bool)

  /** `CreateBookingDto`. `returnBooking` reads only its `product`. */
  datatype CreateBookingPayload = CreateBookingPayload(
    product: ProductId,
    startDate: Date,
    estimatedEndDate: Date)

  /** `BookingListQueryDto` without its pagination fields. */
  datatype ListQuery = ListQuery(status: Option<Status>)

  /** The values the booking entity gives `status` and `returned` when `create` leaves them out. */
  datatype EntityDefaults = EntityDefaults(status: Status, returned: bool)

  const IntendedDefaults := EntityDefaults(Consuming, false)

  /** A query filter: every present field must equal the record's field. */
  datatype Filter = Filter(
    id: Option<BookingId>,
    product: Option<ProductId>,
    user: Option<UserId>,
    status: Option<Status>,
    returned: Option<bool>)

  predicate FieldMatches<T(==)>(want: Option<T>, have: T) {
    want.None? || want.value == have
  }

  predicate Matches(b: Booking, f: Filter) {
    && FieldMatches(f.id, b.id)
    && FieldMatches(f.product, b.product)
    && FieldMatches(f.user, b.user)
    && FieldMatches(f.status, b.status)
    && FieldMatches(f.returned, b.returned)
  }

  /** The filter of `create`'s guard: same product, same user, status CONSUMING. */
  function ConsumingFilter(product: ProductId, user: UserId): Filter {
    Filter(None, Some(product), Some(user), Some(Consuming), None)
  }

  /** The filter of `returnBooking`: same product, same user, not yet returned. */
  function OpenFilter(product: ProductId, user: UserId): Filter {
    Filter(None, Some(product), Some(user), None, Some(false))
  }

  /** The filter of `myBookingFindOne`: this id, owned by this user. */
  function OwnedFilter(id: BookingId, user: UserId): Filter {
    Filter(Some(id), None, Some(user), None, None)
  }

  /** The filter of `myBookings`: owned by this user, with the status when one is given. */
  function ListFilter(query: ListQuery, user: UserId): Filter {
    Filter(None, None, Some(user), query.status, None)
  }

  /** Reference definition of the guard: the user already consumes the product. */
  ghost predicate HoldsConsuming(rows: seq<Booking>, product: ProductId, user: UserId) {
    exists i :: 0 <= i < |rows| && rows[i].product == product && rows[i].user == user
                                && rows[i].status == Consuming
  }

  /** Reference definition of a returnable booking. */
  predicate IsOpenFor(b: Booking, product: ProductId, user: UserId) {
    b.product == product && b.user == user && !b.returned
  }

  /** The filter as a query on records. */
  function Where(f: Filter): Booking -> bool {
    b => Matches(b, f)
  }

  /** The store after an insertion, and the inserted record. */
  datatype Inserted = Inserted(rows: seq<Booking>, booking: Booking)

  /**
   * `create`: refuse when the user already holds a CONSUMING booking for the
   * product; otherwise append one booking built from the payload, the caller
   * and the entity defaults. `id` is the fresh id the store assigns.
   */
  function Create(rows: seq<Booking>, payload: CreateBookingPayload, subscriber: UserId,
                  id: BookingId, defaults: EntityDefaults): (r: Result<Inserted, AppError>)
    ensures r.Failure? <==> HoldsConsuming(rows, payload.product, subscriber)
    ensures r.Failure? ==> r.error == Forbidden(ProductAlreadyBookedError)
    ensures r.Success? ==> r.value.rows == rows + [r.value.booking]
    ensures r.Success? ==> && r.value.booking.id == id
                           && r.value.booking.product == payload.product
                           && r.value.booking.user == subscriber
                           && r.value.booking.startDate == payload.startDate
                           && r.value.booking.estimatedEndDate == payload.estimatedEndDate
                           && r.value.booking.status == defaults.status
                           && r.value.booking.returned == defaults.returned
  {
    if FindFirst(rows, Where(ConsumingFilter(payload.product, subscriber))).Some? then
      Failure(Forbidden(ProductAlreadyBookedError))
    else
      var b := Booking(id, payload.product, subscriber, defaults.status,
                       payload.startDate, payload.estimatedEndDate, defaults.returned);
      Success(Inserted(rows + [b], b))
  }

  /** `myBookingFindOne`: the caller's booking with this id, or nothing. */
  function MyBookingFindOne(rows: seq<Booking>, id: BookingId, subscriber: UserId): (r: Option<Booking>)
    ensures r.Some? ==> r.value in rows && r.value.id == id && r.value.user == subscriber
    ensures r.None? <==> forall b :: b in rows ==> !(b.id == id && b.user == subscriber)
  {
    match FindFirst(rows, Where(OwnedFilter(id, subscriber)))
    case None => None
    case Some(k) => Some(rows[k])
  }

  /** `myBookings`: the caller's bookings, restricted to a status when the query gives one. */
  function MyBookings(rows: seq<Booking>, query: ListQuery, subscriber: UserId): (r: seq<Booking>)
    ensures forall b :: b in r <==> && b in rows
                                    && b.user == subscriber
                                    && (query.status.Some? ==> b.status == query.status.value)
  {
    Select(rows, Where(ListFilter(query, subscriber)))
  }

  /** The store after `returnBooking`, and the record it updated, if any. */
  datatype Returned = Returned(rows: seq<Booking>, updated: Option<Booking>)

  /**
   * `returnBooking`: flip `returned` to true on the first booking of the caller
   * for the product that is not yet returned; touch nothing else.
   */
  function ReturnBooking(rows: seq<Booking>, payload: CreateBookingPayload, subscriber: UserId): (r: Returned)
    ensures |r.rows| == |rows|
    ensures r.updated.None? <==> forall i :: 0 <= i < |rows| ==> !IsOpenFor(rows[i], payload.product, subscriber)
    ensures r.updated.None? ==> r.rows == rows
    ensures r.updated.Some? ==>
      exists k :: && 0 <= k < |rows|
                  && IsOpenFor(rows[k], payload.product, subscriber)
                  && (forall j :: 0 <= j < k ==> !IsOpenFor(rows[j], payload.product, subscriber))
                  && r.rows == rows[k := rows[k].(returned := true)]
                  && r.updated.value == r.rows[k]
  {
    match FindFirst(rows, Where(OpenFilter(payload.product, subscriber)))
    case None => Returned(rows, None)
    case Some(k) =>
      var b := rows[k].(returned := true);
      Returned(rows[k := b], Some(b))
  }
}

=== FILE: collections.dfy ===
/**
 * The document-store primitives every store of the backend is built from: a
 * collection is a sequence of records in insertion order, and a query is a
 * predicate on records.
 */
module Collections {
  import opened Results

  /** The store's acknowledgment of a delete: whether it ran, and how many records it removed. */
  datatype DeleteResult = DeleteResult(acknowledged: bool, deletedCount: nat)

  /** `findOne`: the position of the first record the query matches. */
  function FindFirst<T>(rows: seq<T>, p: T -> bool): (r: Option<nat>)
    ensures r.Some? ==> r.value < |rows| && p(rows[r.value])
    ensures r.Some? ==> forall j :: 0 <= j < r.value ==> !p(rows[j])
    ensures r.None? ==> forall j :: 0 <= j < |rows| ==> !p(rows[j])
  {
    if |rows| == 0 then None
    else if p(rows[0]) then Some(0)
    else match FindFirst(rows[1..], p)
      case None => None
      case Some(k) => Some(k + 1)
  }

  /** `find`: every record the query matches, in store order. */
  function Select<T(==)>(rows: seq<T>, p: T -> bool): (r: seq<T>)
    ensures |r| <= |rows|
    ensures forall i :: 0 <= i < |r| ==> r[i] in rows && p(r[i])
    ensures forall j :: 0 <= j < |rows| && p(rows[j]) ==> rows[j] in r
  {
    if |rows| == 0 then []
    else
      var rest := Select(rows[1..], p);
      assert forall j :: 1 <= j < |rows| ==> rows[j] == rows[1..][j - 1];
      if p(rows[0]) then [rows[0]] + rest else rest
  }

  /** The number of records the query matches. */
  function Count<T>(rows: seq<T>, p: T -> bool): nat
  {
    if |rows| == 0 then 0
    else (if p(rows[0]) then 1 else 0) + Count(rows[1..], p)
  }

  /** The collection without the record at position `k`. */
  function RemoveAt<T>(rows: seq<T>, k: nat): (r: seq<T>)
    requires k < |rows|
    ensures |r| + 1 == |rows|
    ensures forall j :: 0 <= j < k ==> r[j] == rows[j]
    ensures forall j :: k <= j < |r| ==> r[j] == rows[j + 1]
  {
    rows[..k] + rows[k + 1..]
  }

  /** Replacing one record changes the match count by the difference of the two records. */
  lemma {:induction false} CountUpdate<T>(rows: seq<T>, k: nat, x: T, p: T -> bool)
    requires k < |rows|
    ensures Count(rows[k := x], p) + (if p(rows[k]) then 1 else 0)
            == Count(rows, p) + (if p(x) then 1 else 0)
  {
    if k > 0 {
      CountUpdate(rows[1..], k - 1, x, p);
      assert rows[k := x][1..] == rows[1..][k - 1 := x];
    }
  }

  /** Removing one record lowers the match count by one exactly when the query matched it. */
  lemma {:induction false} CountRemove<T>(rows: seq<T>, k: nat, p: T -> bool)
    requires k < |rows|
    ensures Count(RemoveAt(rows, k), p) + (if p(rows[k]) then 1 else 0) == Count(rows, p)
  {
    if k > 0 {
      CountRemove(rows[1..], k - 1, p);
      assert RemoveAt(rows, k)[1..] == RemoveAt(rows[1..], k - 1);
    } else {
      assert RemoveAt(rows, k) == rows[1..];
    }
  }

  /** Appending one record raises the match count by one exactly when the query matches it. */
  lemma {:induction false} CountAppend<T>(rows: seq<T>, x: T, p: T -> bool)
    ensures Count(rows + [x], p) == Count(rows, p) + (if p(x) then 1 else 0)
  {
    if |rows| > 0 {
      CountAppend(rows[1..], x, p);
      assert (rows + [x])[1..] == rows[1..] + [x];
    }
  }

  /** No record matches exactly when the count is zero. */
  lemma {:induction false} CountZeroIffNoMatch<T>(rows: seq<T>, p: T -> bool)
    ensures Count(rows, p) == 0 <==> forall j :: 0 <= j < |rows| ==> !p(rows[j])
  {
    if |rows| > 0 {
      CountZeroIffNoMatch(rows[1..], p);
      assert forall j :: 1 <= j < |rows| ==> rows[j] == rows[1..][j - 1];
    }
  }
}

=== FILE: errors.dfy ===
/**
 * The error taxonomy of the backend: the stable message constants the services
 * throw with, and the HTTP exception kinds that carry them.
 */
module AppErrors {

  /** Machine-readable message constants (the `AppMessage` enum). */
  datatype AppMessage =
    | ProductAlreadyBookedError
    | UsernameAlreadyExists
    | EmailAlreadyExists
    | InvalidCredentials

  /** A field of the user payload that must not be empty. */
  datatype UserField = Username | Email | Password

  /** The exceptions the core raises. */
  datatype AppError =
    | Forbidden(message: AppMessage)   // ForbiddenException
    | Conflict(message: AppMessage)    // uniqueness violation in the credential store
    | Validation(field: UserField)     // malformed or missing input
    | NotFound                         // update/delete that matched nothing

  /** The HTTP status code an error surfaces with. */
  function StatusCode(e: AppError): (code: nat)
    ensures e.Forbidden? <==> code == 403
    ensures 400 <= code < 500
  {
    match e
    case Forbidden(_) => 403
    case Conflict(_) => 409
    case Validation(_) => 400
    case NotFound => 404
  }
}

=== FILE: passwords.dfy ===
/**
 * A stand-in for bcrypt's `hashSync`/`compareSync` pair. A digest is the scheme
 * tag, a 22-character salt and then the plaintext itself, so the stand-in is
 * injective but not one-way: the stored digest ends with the plaintext. The
 * salt is drawn at random by bcrypt; here the caller supplies it. Only the
 * properties the credential store relies on are modelled: a digest is never
 * its plaintext, and comparing accepts exactly the plaintext that was hashed.
 */
module Passwords {

  /** The `$2a$10$` prefix: scheme version and cost factor. */
  const SchemeTag: string := "$2a$10$"

  const SaltLength: nat := 22

  type Salt = s: string | |s| == SaltLength
    witness "......................"

  /** `hashSync(plain, salt)`. */
  function HashSync(plain: string, salt: Salt): (digest: string)
    ensures |digest| == |SchemeTag| + SaltLength + |plain|
    ensures digest[..|SchemeTag|] == SchemeTag
  {
    SchemeTag + salt + plain
  }

  /** `compareSync(plain, digest)`: re-hash with the digest's own salt and compare. */
  predicate CompareSync(plain: string, digest: string) {
    && |digest| >= |SchemeTag| + SaltLength
    && digest[..|SchemeTag|] == SchemeTag
    && HashSync(plain, digest[|SchemeTag|..|SchemeTag| + SaltLength]) == digest
  }

  /** A stored digest never equals the plaintext it was computed from. */
  lemma DigestDiffersFromPlaintext(plain: string, salt: Salt)
    ensures HashSync(plain, salt) != plain
  {
  }

  /** Comparing the hashed plaintext against its digest succeeds. */
  lemma CompareAcceptsHashedPlaintext(plain: string, salt: Salt)
    ensures CompareSync(plain, HashSync(plain, salt))
  {
  }

  /** Comparing any other plaintext against the digest fails. */
  lemma CompareRejectsOtherPlaintext(plain: string, salt: Salt, other: string)
    requires other != plain
    ensures !CompareSync(other, HashSync(plain, salt))
  {
  }
}

=== FILE: results.dfy ===
/** The optional and fallible results shared by every store of the backend. */
module Results {

  /** A lookup that may find nothing: the document store's `null`. */
  datatype Option<+T> = None | Some(value: T)

  /** The outcome of an operation that can reject its input by throwing. */
  datatype Result<+T, +E> = Success(value: T) | Failure(error: E)
}

=== FILE: session_laws.dfy ===
/**
 * Properties of the session store across calls: sessions are never unique per
 * subscriber, each refresh token is bound to the secret of the session that
 * issued it, the access token cannot tell sessions apart, and deleting by id
 * is idempotent and revokes the refresh token.
 */
module SessionLaws {
  import opened Results
  import opened Collections
  import opened Sessions

  /** No two sessions share an id (the store's `_id` index). */
  ghost predicate UniqueIds(sessions: seq<Session>) {
    forall i, j :: 0 <= i < j < |sessions| ==> sessions[i].id != sessions[j].id
  }

  /** Two claims for the same subscriber store two sessions, both owned by that subscriber. */
  lemma RepeatedClaimsKeepBothSessions(sessions: seq<Session>, subscriber: Subscriber,
                                       secret1: Secret, id1: SessionId, secret2: Secret, id2: SessionId)
    requires id1 != id2
    ensures var first := ClaimToken(sessions, subscriber, secret1, id1);
            var second := ClaimToken(first.sessions, subscriber, secret2, id2);
            && second.sessions == sessions + [first.session, second.session]
            && first.session != second.session
            && Count(second.sessions, OwnedBy(subscriber)) == Count(sessions, OwnedBy(subscriber)) + 2
  {
  }

  /** A claim under a fresh id keeps session ids unique. */
  lemma ClaimPreservesUniqueIds(sessions: seq<Session>, subscriber: Subscriber, rtSecret: Secret, id: SessionId)
    requires UniqueIds(sessions)
    requires forall i :: 0 <= i < |sessions| ==> sessions[i].id != id
    ensures UniqueIds(ClaimToken(sessions, subscriber, rtSecret, id).sessions)
  {
  }

  /**
   * The refresh token a claim returns verifies against the store the claim
   * leaves, and its signature checks under no stored secret but the claim's.
   */
  lemma RefreshTokenBoundToItsSession(sessions: seq<Session>, subscriber: Subscriber, rtSecret: Secret,
                                      id: SessionId)
    ensures var c := ClaimToken(sessions, subscriber, rtSecret, id);
            VerifyRefreshToken(c.sessions, c.tokens.refreshToken)
    ensures var c := ClaimToken(sessions, subscriber, rtSecret, id);
            forall i :: 0 <= i < |c.sessions| && c.sessions[i].rtSecret != rtSecret ==>
              !JwtVerify(c.tokens.refreshToken, c.sessions[i].rtSecret)
  {
    var c := ClaimToken(sessions, subscriber, rtSecret, id);
    assert c.sessions[|sessions|] == c.session;
  }

  /**
   * The access token depends on the subscriber alone: claims that store
   * different sessions for one subscriber issue the same access token (tokens
   * here carry no issued-at time), so no reading of the access token can
   * recover the session it came with.
   */
  lemma AccessTokenCannotNameItsSession(sessions: seq<Session>, subscriber: Subscriber,
                                        secret1: Secret, id1: SessionId, secret2: Secret, id2: SessionId,
                                        read: Token -> SessionId)
    requires id1 != id2
    ensures var first := ClaimToken(sessions, subscriber, secret1, id1);
            var second := ClaimToken(first.sessions, subscriber, secret2, id2);
            && first.tokens.accessToken == second.tokens.accessToken
            && (read(first.tokens.accessToken) != first.session.id
                || read(second.tokens.accessToken) != second.session.id)
  {
  }

  /** In a store with unique ids, at most one session carries a given id. */
  lemma {:induction false} AtMostOneWithId(sessions: seq<Session>, id: SessionId)
    requires UniqueIds(sessions)
    ensures Count(sessions, WithId(id)) <= 1
  {
    if |sessions| > 0 {
      var rest := sessions[1..];
      assert UniqueIds(rest) by {
        forall i, j | 0 <= i < j < |rest|
          ensures rest[i].id != rest[j].id
        {
          assert rest[i] == sessions[i + 1] && rest[j] == sessions[j + 1];
        }
      }
      AtMostOneWithId(rest, id);
      if sessions[0].id == id {
        forall j | 0 <= j < |rest|
          ensures !WithId(id)(rest[j])
        {
          assert rest[j] == sessions[j + 1];
        }
        CountZeroIffNoMatch(rest, WithId(id));
      }
    }
  }

  /**
   * Deleting by id is idempotent in a store with unique ids: a second delete
   * with the same id removes nothing and reports zero deletions.
   */
  lemma DeleteByIdIsIdempotent(sessions: seq<Session>, id: SessionId)
    requires UniqueIds(sessions)
    ensures var once := DeleteById(sessions, id);
            DeleteById(once.sessions, id) == Deletion(once.sessions, DeleteResult(true, 0))
  {
  }

  /**
   * No two sessions share a refresh secret. Each claim's secret is the bcrypt
   * hash of the subscriber and the current time under a fresh random salt, so
   * the store relies on it being new.
   */
  ghost predicate UniqueSecrets(sessions: seq<Session>) {
    forall i, j :: 0 <= i < j < |sessions| ==> sessions[i].rtSecret != sessions[j].rtSecret
  }

  /**
   * Deleting a session by its id revokes every token signed with that
   * session's secret: in a store with unique ids and unique secrets no
   * remaining session lets such a token verify as a refresh token.
   */
  lemma DeleteRevokesRefreshToken(sessions: seq<Session>, k: nat, t: Token)
    requires UniqueIds(sessions) && UniqueSecrets(sessions)
    requires k < |sessions|
    requires JwtVerify(t, sessions[k].rtSecret)
    ensures !VerifyRefreshToken(DeleteById(sessions, sessions[k].id).sessions, t)
  {
    // Holds because the deleted session is the only one holding its secret (`UniqueSecrets`).
  }
}

=== FILE: sessions.dfy ===
/**
 * The session store and token issuance of `SessionService`. Each claim stores
 * one session holding the subscriber and a per-claim refresh secret, and
 * issues two JWTs whose payload is the subscriber: the access token signed
 * with the process-wide secret, the refresh token with the session's secret.
 * A JWT is an opaque signed value: it records its payload and the key that
 * signed it, and verifying with a key succeeds exactly for that key.
 */
module Sessions {
  import opened Results
  import opened Collections

  type SessionId = string
  type Subscriber = string
  type Secret = string

  /** A stored session: its id, the owning user and the refresh-token secret. */
  datatype Session = Session(id: SessionId, subscriber: Subscriber, rtSecret: Secret)

  /** The JWT payload `{ subscriber }`. */
  datatype Payload = Payload(subscriber: Subscriber)

  /** A signed JWT. */
  datatype Token = Token(payload: Payload, key: Secret)

  datatype TokenPair = TokenPair(accessToken: Token, refreshToken: Token)

  /** The access-token signing secret, a constant in the code. */
  const AccessTokenSecret: Secret := "auth.at_secret"

  /** `jwtSign(payload, key)`. */
  function JwtSign(payload: Payload, key: Secret): Token {
    Token(payload, key)
  }

  /** Signature verification of a token against a key. */
  predicate JwtVerify(t: Token, key: Secret) {
    t.key == key
  }

  /** `decode`: the payload, readable without any key. */
  function JwtDecode(t: Token): Payload {
    t.payload
  }

  /**
   * `generateAccessAndRefreshTokens`: both payloads carry only the subscriber;
   * the access token verifies under the constant secret, the refresh token
   * under `rtSecret`.
   */
  function GenerateAccessAndRefreshTokens(subscriber: Subscriber, rtSecret: Secret): (r: TokenPair)
    ensures JwtDecode(r.accessToken) == Payload(subscriber)
    ensures JwtDecode(r.refreshToken) == Payload(subscriber)
    ensures forall key :: JwtVerify(r.accessToken, key) <==> key == AccessTokenSecret
    ensures forall key :: JwtVerify(r.refreshToken, key) <==> key == rtSecret
  {
    TokenPair(JwtSign(Payload(subscriber), AccessTokenSecret), JwtSign(Payload(subscriber), rtSecret))
  }

  /** The store after an insertion, and the inserted session. */
  datatype Stored = Stored(sessions: seq<Session>, session: Session)

  /**
   * `storeSessionToDatabase`: append one session for the subscriber and
   * secret, whatever sessions the subscriber already has. `id` is the fresh id
   * the store assigns.
   */
  function StoreSessionToDatabase(sessions: seq<Session>, subscriber: Subscriber, rtSecret: Secret,
                                  id: SessionId): (r: Stored)
    ensures r.sessions == sessions + [r.session]
    ensures r.session.id == id && r.session.subscriber == subscriber && r.session.rtSecret == rtSecret
    ensures Count(r.sessions, OwnedBy(subscriber)) == Count(sessions, OwnedBy(subscriber)) + 1
  {
    var s := Session(id, subscriber, rtSecret);
    CountAppend(sessions, s, OwnedBy(subscriber));
    Stored(sessions + [s], s)
  }

  /** The sessions of one subscriber, as a query. */
  function OwnedBy(subscriber: Subscriber): Session -> bool {
    (s: Session) => s.subscriber == subscriber
  }

  /** The session with this id, as a query. */
  function WithId(id: SessionId): Session -> bool {
    (s: Session) => s.id == id
  }

  /** The store after a claim, the session it stored and the tokens it issued. */
  datatype Claim = Claim(sessions: seq<Session>, session: Session, tokens: TokenPair)

  /**
   * `claimToken`: store a session holding the caller-supplied refresh secret
   * (the bcrypt hash of the subscriber and the current time in the code), then
   * issue the token pair for that same secret.
   */
  function ClaimToken(sessions: seq<Session>, subscriber: Subscriber, rtSecret: Secret,
                      id: SessionId): (r: Claim)
    ensures r.sessions == sessions + [r.session]
    ensures r.session == Session(id, subscriber, rtSecret)
    ensures JwtVerify(r.tokens.refreshToken, r.session.rtSecret)
    ensures JwtVerify(r.tokens.accessToken, AccessTokenSecret)
    ensures JwtDecode(r.tokens.accessToken).subscriber == r.session.subscriber
    ensures JwtDecode(r.tokens.refreshToken).subscriber == r.session.subscriber
  {
    var stored := StoreSessionToDatabase(sessions, subscriber, rtSecret, id);
    Claim(stored.sessions, stored.session, GenerateAccessAndRefreshTokens(subscriber, rtSecret))
  }

  /**
   * Refresh-token verification by what the token carries: the payload names a
   * subscriber, and some stored session of that subscriber holds a secret the
   * token verifies under. A `{ subscriber }` token carries no session id.
   */
  predicate VerifyRefreshToken(sessions: seq<Session>, t: Token) {
    exists i :: 0 <= i < |sessions| && sessions[i].subscriber == JwtDecode(t).subscriber
                && JwtVerify(t, sessions[i].rtSecret)
  }

  /** The store after a deletion, and the acknowledgment. */
  datatype Deletion = Deletion(sessions: seq<Session>, ack: DeleteResult)

  /**
   * Delete by `_id`, first match: remove the first session with the id. A missing id
   * is not an error: the acknowledgment then reports zero deletions.
   */
  function DeleteById(sessions: seq<Session>, id: SessionId): (r: Deletion)
    ensures r.ack.acknowledged
    ensures r.ack.deletedCount <= 1
    ensures r.ack.deletedCount == 1 <==> exists i :: 0 <= i < |sessions| && sessions[i].id == id
    ensures r.ack.deletedCount == 0 ==> r.sessions == sessions
    ensures |r.sessions| + r.ack.deletedCount == |sessions|
    ensures Count(r.sessions, WithId(id)) + r.ack.deletedCount == Count(sessions, WithId(id))
    ensures r.ack.deletedCount == 1 ==>
      exists k :: && 0 <= k < |sessions|
                  && sessions[k].id == id
                  && (forall j :: 0 <= j < k ==> sessions[j].id != id)
                  && r.sessions == RemoveAt(sessions, k)
  {
    match FindFirst(sessions, WithId(id))
    case None => Deletion(sessions, DeleteResult(true, 0))
    case Some(k) =>
      CountRemove(sessions, k, WithId(id));
      Deletion(RemoveAt(sessions, k), DeleteResult(true, 1))
  }
}

=== FILE: user_laws.dfy ===
/**
 * Properties of the credential store across calls: every operation keeps the
 * uniqueness invariant, a created user is found again by each of its keys,
 * and a deleted user is gone for good.
 */
module UserLaws {
  import opened Results
  import opened AppErrors
  import opened Collections
  import opened Passwords
  import opened Users

  /** `create` under a fresh id keeps credentials non-empty and unique. */
  lemma CreatePreservesValid(users: seq<User>, payload: CreateUserPayload, id: UserId, salt: Salt)
    requires Valid(users)
    requires forall i :: 0 <= i < |users| ==> users[i].id != id
    ensures var r := Create(users, payload, id, salt);
            r.Success? ==> Valid(r.value.users)
  {
  }

  /** `update` changes only the display name, so it keeps the invariant. */
  lemma UpdatePreservesValid(users: seq<User>, f: UserFilter, patch: UserPatch)
    requires Valid(users)
    ensures var r := Update(users, f, patch);
            r.Success? ==> Valid(r.value.users)
  {
  }

  /** `delete` removes a record, so it keeps the invariant. */
  lemma DeletePreservesValid(users: seq<User>, f: UserFilter)
    requires Valid(users)
    ensures var r := Delete(users, f);
            r.Success? ==> Valid(r.value.users)
  {
  }

  /** In a valid store a lookup by id, username or email selects at most one record. */
  lemma {:induction false} AtMostOneSelected(users: seq<User>, f: UserFilter)
    requires Valid(users)
    ensures Count(users, WhereUser(f)) <= 1
  {
    if |users| > 0 {
      var rest := users[1..];
      assert forall j :: 1 <= j < |users| ==> users[j] == rest[j - 1];
      AtMostOneSelected(rest, f);
      if Selects(f, users[0]) {
        assert forall j :: 0 <= j < |rest| ==> !Selects(f, rest[j]) by {
          forall j | 0 <= j < |rest|
            ensures !Selects(f, rest[j])
          {
            assert rest[j] == users[j + 1];
          }
        }
        CountZeroIffNoMatch(rest, WhereUser(f));
      }
    }
  }

  /** A user created in a valid store under a fresh id is found by its id, username and email. */
  lemma CreatedUserIsFound(users: seq<User>, payload: CreateUserPayload, id: UserId, salt: Salt)
    requires forall i :: 0 <= i < |users| ==> users[i].id != id
    requires Create(users, payload, id, salt).Success?
    ensures var c := Create(users, payload, id, salt).value;
            && GetUser(c.users, ById(id)) == Some(c.user)
            && GetUser(c.users, ByUsername(payload.username)) == Some(c.user)
            && GetUser(c.users, ByEmail(payload.email)) == Some(c.user)
  {
    var c := Create(users, payload, id, salt).value;
    assert c.users[|users|] == c.user;
    assert forall i :: 0 <= i < |users| ==> c.users[i] == users[i];
  }

  /**
   * Deleting by id, username or email from a valid store leaves nothing that
   * lookup can find, so deleting the same user a second time throws.
   */
  lemma DeletedUserIsGone(users: seq<User>, f: UserFilter)
    requires Valid(users)
    requires Delete(users, f).Success?
    ensures GetUser(Delete(users, f).value.users, f) == None
    ensures Delete(Delete(users, f).value.users, f) == Failure(NotFound)
  {
  }
}

=== FILE: users.dfy ===
/**
 * The credential store behind `UserService`: user records with unique
 * usernames and emails and passwords kept only as bcrypt digests. The
 * service's behaviour is the one its test suite pins down: `create` rejects
 * empty credentials and duplicates, `getUser` answers null rather than
 * throwing, and `update`/`delete` throw when nothing matches.
 */
module Users {
  import opened Results
  import opened AppErrors
  import opened Collections
  import opened Passwords

  type UserId = string

  /** A stored user. `password` holds the digest, never the plaintext. */
  datatype User = User(id: UserId, name: string, username: string, email: string, password: string)

  /** The fields `create` receives; `password` is the plaintext. */
  datatype CreateUserPayload = CreateUserPayload(name: string, username: string, email: string, password: string)

  /** The lookups the service is called with: by `_id`, by `username`, by `email`. */
  datatype UserFilter = ById(id: UserId) | ByUsername(username: string) | ByEmail(email: string)

  /** The patch `update` applies; the tests patch the display name. */
  datatype UserPatch = UserPatch(name: Option<string>)

  predicate Selects(f: UserFilter, u: User) {
    match f
    case ById(id) => u.id == id
    case ByUsername(name) => u.username == name
    case ByEmail(email) => u.email == email
  }

  function WhereUser(f: UserFilter): User -> bool {
    u => Selects(f, u)
  }

  ghost predicate UsernameTaken(users: seq<User>, username: string) {
    exists i :: 0 <= i < |users| && users[i].username == username
  }

  ghost predicate EmailTaken(users: seq<User>, email: string) {
    exists i :: 0 <= i < |users| && users[i].email == email
  }

  /**
   * The store invariant: credentials are non-empty, and no two records share
   * an id, a username or an email.
   */
  ghost predicate Valid(users: seq<User>) {
    && (forall i :: 0 <= i < |users| ==> users[i].username != [] && users[i].email != [])
    && (forall i, j :: 0 <= i < j < |users| ==>
          && users[i].id != users[j].id
          && users[i].username != users[j].username
          && users[i].email != users[j].email)
  }

  /** The store after an insertion, and the inserted record. */
  datatype Inserted = Inserted(users: seq<User>, user: User)

  /**
   * `create`: reject an empty username, email or password, then a taken
   * username, then a taken email; otherwise append the user with its password
   * hashed under `salt`. `id` is the fresh id the store assigns.
   */
  function Create(users: seq<User>, payload: CreateUserPayload, id: UserId, salt: Salt): (r: Result<Inserted, AppError>)
    ensures r.Failure? <==> || payload.username == [] || payload.email == [] || payload.password == []
                            || UsernameTaken(users, payload.username)
                            || EmailTaken(users, payload.email)
    ensures payload.username == [] ==> r == Failure(Validation(Username))
    ensures payload.username != [] && payload.email == [] ==> r == Failure(Validation(Email))
    ensures payload.username != [] && payload.email != [] && payload.password == [] ==>
              r == Failure(Validation(Password))
    ensures && payload.username != [] && payload.email != [] && payload.password != []
            && UsernameTaken(users, payload.username)
            ==> r == Failure(Conflict(UsernameAlreadyExists))
    ensures && payload.username != [] && payload.email != [] && payload.password != []
            && !UsernameTaken(users, payload.username) && EmailTaken(users, payload.email)
            ==> r == Failure(Conflict(EmailAlreadyExists))
    ensures r.Success? ==> && r.value.users == users + [r.value.user]
                           && r.value.user.id == id
                           && r.value.user.name == payload.name
                           && r.value.user.username == payload.username
                           && r.value.user.email == payload.email
                           && r.value.user.password != payload.password
                           && CompareSync(payload.password, r.value.user.password)
  {
    if payload.username == [] then Failure(Validation(Username))
    else if payload.email == [] then Failure(Validation(Email))
    else if payload.password == [] then Failure(Validation(Password))
    else if FindFirst(users, WhereUser(ByUsername(payload.username))).Some? then
      Failure(Conflict(UsernameAlreadyExists))
    else if FindFirst(users, WhereUser(ByEmail(payload.email))).Some? then
      Failure(Conflict(EmailAlreadyExists))
    else
      DigestDiffersFromPlaintext(payload.password, salt);
      CompareAcceptsHashedPlaintext(payload.password, salt);
      var u := User(id, payload.name, payload.username, payload.email, HashSync(payload.password, salt));
      Success(Inserted(users + [u], u))
  }

  /** `getUser`: the first record the filter selects, or null. */
  function GetUser(users: seq<User>, f: UserFilter): (r: Option<User>)
    ensures r.Some? ==> r.value in users && Selects(f, r.value)
    ensures r.None? <==> forall i :: 0 <= i < |users| ==> !Selects(f, users[i])
  {
    match FindFirst(users, WhereUser(f))
    case None => None
    case Some(k) => Some(users[k])
  }

  /** The store after an update, and the updated record. */
  datatype Updated = Updated(users: seq<User>, user: User)

  /** `update`: patch the first record the filter selects; throw when none does. */
  function Update(users: seq<User>, f: UserFilter, patch: UserPatch): (r: Result<Updated, AppError>)
    ensures r.Failure? <==> forall i :: 0 <= i < |users| ==> !Selects(f, users[i])
    ensures r.Failure? ==> r.error == NotFound
    ensures r.Success? ==>
      exists k :: && 0 <= k < |users|
                  && Selects(f, users[k])
                  && r.value.users == users[k := r.value.user]
                  && r.value.user.(name := users[k].name) == users[k]
                  && r.value.user.name == (if patch.name.Some? then patch.name.value else users[k].name)
  {
    match FindFirst(users, WhereUser(f))
    case None => Failure(NotFound)
    case Some(k) =>
      var u := if patch.name.Some? then users[k].(name := patch.name.value) else users[k];
      Success(Updated(users[k := u], u))
  }

  /** The store after a deletion, and the acknowledgment. */
  datatype Deleted = Deleted(users: seq<User>, ack: DeleteResult)

  /** `delete`: remove the first record the filter selects; throw when none does. */
  function Delete(users: seq<User>, f: UserFilter): (r: Result<Deleted, AppError>)
    ensures r.Failure? <==> forall i :: 0 <= i < |users| ==> !Selects(f, users[i])
    ensures r.Failure? ==> r.error == NotFound
    ensures r.Success? ==> r.value.ack == DeleteResult(true, 1)
    ensures r.Success? ==> |r.value.users| + 1 == |users|
    ensures r.Success? ==>
      Count(r.value.users, WhereUser(f)) + 1 == Count(users, WhereUser(f))
    ensures r.Success? ==>
      exists k :: && 0 <= k < |users|
                  && Selects(f, users[k])
                  && (forall j :: 0 <= j < k ==> !Selects(f, users[j]))
                  && r.value.users == RemoveAt(users, k)
  {
    match FindFirst(users, WhereUser(f))
    case None => Failure(NotFound)
    case Some(k) =>
      CountRemove(users, k, WhereUser(f));
      Success(Deleted(RemoveAt(users, k), DeleteResult(true, 1)))
  }
}
